=== FILE: README.md ===
# Subject flow: a Dafny model of the task page

This project models the logic of a small task manager. Tasks are grouped under subjects, and a
single page talks to a REST service. The model has three parts:

- **Api** (`api.dfy`): the `Subject` and `Task` records and the three task statuses with their
  wire names. It also holds one request descriptor per endpoint. `Describe` gives the id guard
  and the method, path and body an endpoint sends. `Route` reads a request back as an endpoint
  call, so the two are inverses. `Call` adds the single reply: a non-ok reply becomes an error,
  and there is no retry.
- **Lists** (`lists.dfy`) and **Page** (`page.dfy`): the page state is subjects, selection,
  tasks, the shared `loading` flag, the task modal and the task being edited. Each handler is a
  pure transition. It takes the server's reply as an input and returns the new state and the
  requests it sent. Mutations splice the page's own lists: append, remove by id, or replace by
  id. `Apply` runs one event, including the selection effect, and `Run` runs a sequence of
  events.
- **Trimming** (`trim.dfy`) and **TaskForm** (`task_form.dfy`): JavaScript's `trim`, with the
  exact ECMAScript whitespace class. The task modal is filled from the edited task, or from a
  blank pending form. A submit trims the title and rejects a blank one. It also trims the
  description, and an empty description or due date becomes absent.

Behaviours of the page worth noting:

- After a mutation the page splices its local lists. Nothing is reloaded from the server.
- Deleting the selected subject moves the selection to the first remaining subject. The
  selection becomes none only when no subject is left.
- A failed task load raises an error toast and keeps the previous task list.
- One `loading` flag is shared by the subject and task loads.
- No confirmation step guards deletes: the sidebar and the task cards call the delete handlers
  directly.

## Model

| member | source | states |
|---|---|---|
| Api.ParseStatus | src/lib/api.ts:21 | only the three wire names `pending`, `in_progress` and `done` parse, and each parses back to a status that carries that name |
| Api.StatusWireRoundTrip | src/lib/api.ts:21 | every status's wire name parses back to that status, and no two statuses share a name |
| Api.Describe | src/lib/api.ts:25-95 | an endpoint fails before sending exactly when an id it guards is 0; otherwise its request routes back to the same endpoint, and it has a body exactly when it is a POST or PUT |
| Api.RouteOnlyAcceptsDescribed | src/lib/api.ts:25-95 | every request the router accepts is the one `Describe` issues for that endpoint, so the URL table is unambiguous |
| Api.DescribeInjective | src/lib/api.ts:25-95 | two endpoint calls that issue the same request are the same call |
| Api.SubjectEndpointsUnguarded | src/lib/api.ts:45-51 | deleting a subject sends `DELETE subjects/{id}` for every id, zero included; listing and creating subjects never fail before sending |
| Api.Call | src/lib/api.ts:25-95 | at most one request goes out, and none when the id guard throws; that request is the endpoint's own; the call succeeds exactly when a request was sent and the reply was ok, and then yields the reply's payload |
| Lists.Remove | src/pages/Index.tsx:93 | an element survives removal exactly when it was present and its id differs from the removed id |
| Lists.RemoveMultiset | src/pages/Index.tsx:93 | removal drops every copy of an element with the id and keeps every copy of every other element |
| Lists.RemoveIsSubsequence | src/pages/Index.tsx:93 | the survivors of a removal keep their original relative order |
| Lists.RemoveAppend | src/pages/Index.tsx:156 | removing from a concatenation removes from each part, so elements before others stay before them |
| Lists.RemoveAbsent | src/pages/Index.tsx:156 | removing an id that no element carries leaves the list unchanged |
| Lists.RemoveTwice | src/pages/Index.tsx:156 | removing the same id twice equals removing it once |
| Lists.Replace | src/pages/Index.tsx:137 | replacement keeps the length; each element with the id becomes the new value; all others stay at their positions |
| Lists.ReplaceAbsent | src/pages/Index.tsx:137 | replacing an id that no element carries leaves the list unchanged |
| Trimming.Trim | src/components/TaskModal.tsx:45-48 | the trimmed string has no whitespace at either end and is no longer than the input; it is empty exactly when the input is all whitespace |
| Trimming.TrimPadded | src/components/TaskModal.tsx:45-48 | trimming any whitespace padding around a trimmed core gives back exactly that core |
| Trimming.TrimOfTrimmed | src/components/TaskModal.tsx:45-48 | trimming a string that neither starts nor ends with whitespace changes nothing |
| Trimming.TrimIdempotent | src/components/TaskModal.tsx:45-48 | trimming twice gives the same string as trimming once, for every input |
| Trimming.TrimIsInfix | src/components/TaskModal.tsx:45-48 | the input is the trimmed string with whitespace-only text before and after it |
| TaskForm.IsWhitespace | src/components/TaskModal.tsx:45-48 | the characters `trim` strips are never printable ASCII and never the next-line control, the Mongolian vowel separator or the zero-width space; all lie at or below the space or from the no-break space up to the byte order mark |
| TaskForm.StatusOptionsComplete | src/components/TaskModal.tsx:107-109 | the status select offers every status, three in all, with no repeats |
| TaskForm.InitForm | src/components/TaskModal.tsx:25-41 | with no task the form is blank and pending; with a task the title and status are copied verbatim, and absent description or due date show as empty inputs |
| TaskForm.Submit | src/components/TaskModal.tsx:43-54 | a submit is refused exactly when the title is all whitespace; otherwise the saved title is the input's trim, which is non-empty, and the description is absent exactly when it was blank and is the input's trim otherwise; the due date is absent exactly when empty and passed through unchanged otherwise, and the status passes through |
| TaskForm.DisabledIffRefused | src/components/TaskModal.tsx:119 | the submit button is disabled exactly when a submit would save nothing |
| TaskForm.SubmitIgnoresTitlePadding | src/components/TaskModal.tsx:46 | surrounding the title with whitespace does not change what is saved |
| TaskForm.SubmitIgnoresDescriptionPadding | src/components/TaskModal.tsx:48 | surrounding the description with whitespace does not change what is saved |
| TaskForm.EditRoundTrip | src/components/TaskModal.tsx:25-54 | opening the form on a task with trimmed non-empty title and description and a non-empty due date, then submitting unchanged, saves that task's own fields |
| TaskForm.SubmitIsStable | src/components/TaskModal.tsx:25-54 | reopening the form on a task that holds what a submit saved, and submitting again, saves the same fields |
| Page.LoadSubjects | src/pages/Index.tsx:37-54 | sends `GET subjects`; on success the fetched list replaces the subjects, and the selection changes only when nothing was selected and the list is non-empty, to its first entry; on failure only an error toast appears; loading ends either way |
| Page.LoadTasks | src/pages/Index.tsx:56-70 | a zero subject id sends nothing and fails; otherwise sends `GET subjects/{id}/tasks`; on success the fetched tasks replace the list; on failure the old tasks stay and an error toast appears; loading ends either way |
| Page.SelectionEffect | src/pages/Index.tsx:29-35 | with a selection, the only request is the task list of exactly the selected subject's id, and an ok reply replaces the tasks while a failed one keeps them and raises an error toast; without one the task list becomes empty and nothing is sent |
| Page.Settle | src/pages/Index.tsx:29-35 | when a step moves the selection to a subject with a non-zero id, that subject's task list is requested after the step's own requests, and an ok reply replaces the tasks and keeps the toast; a failed reply, or a subject with id 0 (which sends nothing), keeps the tasks and raises an error toast; loading ends either way; when it moves to none, the tasks are emptied and nothing else changes; when it keeps the selection, nothing more happens |
| Page.Select | src/pages/Index.tsx:178 | picking a subject in the sidebar makes it the selection and changes nothing else, the loading flag, the modal and the toast included |
| Page.AddSubject | src/pages/Index.tsx:72-88 | sends `POST subjects` with only the name; on success the created subject is appended after the unchanged earlier subjects and becomes the selection; on failure only an error toast appears; the loading flag and the task modal are left as they were either way |
| Page.DeleteSubject | src/pages/Index.tsx:90-109 | sends `DELETE subjects/{id}`; on success exactly the subjects with another id remain, in order; each survivor as often as before; a selection with the deleted id falls back to the first remaining subject or none, and any other selection is kept; on failure only an error toast appears; the loading flag and the task modal are left as they were either way |
| Page.AddTask | src/pages/Index.tsx:111-127 | with no selection nothing happens; otherwise sends `POST subjects/{sid}/tasks` with the fields; on success the created task is appended to the unchanged earlier tasks; on failure only an error toast appears; the loading flag and the task modal are left as they were either way |
| Page.UpdateTask | src/pages/Index.tsx:129-150 | with no selection or no edited task nothing happens; otherwise sends `PUT subjects/{sid}/tasks/{tid}`; on success exactly the tasks with the edited id are replaced, length and other positions are kept, and editing ends; on failure only an error toast appears; the loading flag and the task modal are left as they were either way |
| Page.DeleteTask | src/pages/Index.tsx:152-168 | with no selection nothing happens; otherwise sends `DELETE subjects/{sid}/tasks/{tid}`; on success exactly the tasks with another id remain, in order and each as often as before; on failure only an error toast appears; the loading flag and the task modal are left as they were either way |
| Page.OpenNewTask | src/pages/Index.tsx:196-199 | the modal opens with no task under edit, on a blank pending form whose save adds a task; the page's data, the toast and the loading flag are untouched |
| Page.OpenEditTask | src/pages/Index.tsx:231-234 | the modal opens on the form filled from that task, whose save updates it; the page's data, the toast and the loading flag are untouched |
| Page.CloseTaskModal | src/pages/Index.tsx:273-276 | the modal closes and no task stays under edit; the page's data, the toast and the loading flag are untouched |
| Page.SaveTask | src/pages/Index.tsx:277 | saving updates when a task is being edited (a PUT) and adds otherwise (a POST) |
| Page.SubmitTaskForm | src/components/TaskModal.tsx:43-54 | a refused submit changes nothing and sends nothing; an accepted one sends what the save dispatch sends, leaves the subjects, selection, tasks and toast as that save leaves them, and closes the modal with editing cleared; the loading flag is never touched |
| Page.Apply | src/pages/Index.tsx:23-35 | picking another subject, mounting with a first subject, and adding a subject each select that subject and, when its id is non-zero, then request its task list, whose ok reply replaces the tasks; picking the current subject does nothing; opening and closing the modal send nothing and leave the data alone; no event leaves a task under edit with the modal closed |
| Page.SelectionChangeLoadsTasks | src/pages/Index.tsx:29-35 | for every event, moving the selection to a subject with a non-zero id makes that subject's task list the event's last request |
| Page.KeptSelectionLoadsNoTasks | src/pages/Index.tsx:29-35 | for every event that keeps the selection, no request it sends fetches a task list |
| Page.Run | src/pages/Index.tsx:178-277 | over any sequence of events a task is under edit only while the modal is open, and a sequence of modal events alone leaves subjects, selection and tasks unchanged |
| Page.FailureKeepsLists | src/pages/Index.tsx:37-168 | an event whose API reply is not ok leaves subjects, selection and tasks unchanged |
| Page.FailuresKeepLists | src/pages/Index.tsx:37-168 | any sequence of failing events leaves subjects, selection and tasks unchanged |
| Page.SelectionStaysListed | src/pages/Index.tsx:37-109 | every event keeps the selection among the listed subjects, given that the sidebar offers only listed subjects and the mount load starts with no selection |
| Page.AddThenDeleteSubject | src/pages/Index.tsx:72-109 | adding a subject with a fresh id and then deleting it restores the subject list, and the selection falls back to its first subject |
| Page.AddThenDeleteTask | src/pages/Index.tsx:111-168 | adding a task with a fresh id and then deleting it restores the task list |
| Page.UpdateOfUnlistedTask | src/pages/Index.tsx:129-150 | updating an edited task whose id is not listed changes no task, and editing still ends |
| Page.DeleteOnlySubject | src/pages/Index.tsx:90-109 | deleting the only subject while it is selected leaves no subject, no selection and no tasks, after one DELETE request |
| Page.DeleteSelectedMovesSelection | src/pages/Index.tsx:90-109 | deleting the selected head subject selects the next subject and, when that subject's id is non-zero, then requests exactly its tasks |

## Left out

- The HTTP transport, JSON encoding, the base URL and the tunnelling headers are not modelled.
  Each call takes the reply (`ok` flag and payload) as an input, and a transport failure is
  treated like a non-ok reply.
- Ids in a URL are kept as path segments. Their decimal rendering into the URL string is not
  modelled.
- Api.Describe: a falsy id is modelled as 0 only. `NaN` has no counterpart among Dafny integers.
- The update endpoint accepts a partial body, and `JSON.stringify` leaves out a key whose value
  is `undefined`. A blank description or an empty due date is therefore left out of the body
  on the wire. In the model that field is `None`, which stands for the omitted key.
- Api.ParseStatus: the client never checks a status at run time. It trusts the JSON of every
  response, so an unknown status from the server would pass through. `ParseStatus` models the
  status union type of the records, not a check the client performs.
- React scheduling and async interleaving are not modelled. Events run one at a time, and each
  handler completes its call before the next event. Handlers that read stale lists captured at
  render time are therefore not modelled.
- Page.LoadSubjects, Page.LoadTasks: `loading` is true only while a load awaits its reply. A
  handler is one atomic step, so the model shows only that loading is false afterwards.
- Page.Settle: React runs the selection effect when the selected object changes by reference.
  The model compares values, and reselecting the current subject does nothing.
- Toast texts are left out; only the kind of notice (success or error) is kept.
- The sidebar and subject modal open flags, the theme toggle, the header, the task cards and
  their labels, icons and date formatting are presentation only.
- The confirm-delete dialog is not wired into the page, so it is not modelled.
- The subject creation modal (`SubjectModal`) is not part of this model. Whatever validation it
  applies to a subject name before calling the page is therefore absent.

=== FILE: api.dfy ===
/**
 The REST client of the task page: the Subject and Task records, the three
 task statuses with their wire names, and one request descriptor per
 endpoint. `Describe` is the pure part of every endpoint function (its id
 guard and the method, path and body it would send); `Call` adds the single
 response it receives. Transport, JSON and the base URL are not modelled.
 */
module Api {

  datatype Option<+T> = None | Some(value: T)

  /** What an awaited API promise settles to: a value, or a thrown error. */
  datatype Outcome<+T> = Ok(value: T) | Err

  datatype Status = Pending | InProgress | Done

  datatype Subject = Subject(subjectId: int, name: string, createdAt: Option<string>)

  datatype Task = Task(
    taskId: int,
    subjectId: int,
    title: string,
    description: Option<string>,
    dueDate: Option<string>,
    status: Status,
    createdAt: Option<string>)

  /** The client-writable part of a task: a Task without its two ids and its creation time. */
  datatype TaskFields = TaskFields(
    title: string,
    description: Option<string>,
    dueDate: Option<string>,
    status: Status)

  function FieldsOf(t: Task): TaskFields
  {
    TaskFields(t.title, t.description, t.dueDate, t.status)
  }

  /** The string a status is sent and received as. */
  function WireName(s: Status): string
  {
    match s
    case Pending => "pending"
    case InProgress => "in_progress"
    case Done => "done"
  }

  /** Reads a wire status; any string other than the three names is rejected. */
  function ParseStatus(w: string): (r: Option<Status>)
    ensures r.Some? <==> w in {"pending", "in_progress", "done"}
    ensures r.Some? ==> WireName(r.value) == w
  {
    if w == "pending" then Some(Pending)
    else if w == "in_progress" then Some(InProgress)
    else if w == "done" then Some(Done)
    else None
  }

  lemma StatusWireRoundTrip(s: Status)
    ensures ParseStatus(WireName(s)) == Some(s)
    ensures forall t: Status :: WireName(t) == WireName(s) ==> t == s
  {
  }

  datatype HttpMethod = Get | Post | Put | Delete

  /** One path segment below the API base URL: a literal word or an interpolated id. */
  datatype Segment = Lit(word: string) | Param(id: int)

  /** A JSON request body. Subject creation sends only the name; task writes send TaskFields. */
  datatype Body = NoBody | NameOnly(name: string) | Fields(fields: TaskFields)

  datatype Request = Request(verb: HttpMethod, path: seq<Segment>, body: Body)

  datatype Endpoint =
    | ListSubjects
    | CreateSubject(name: string)
    | DeleteSubject(subjectId: int)
    | ListTasks(subjectId: int)
    | CreateTask(subjectId: int, fields: TaskFields)
    | UpdateTask(subjectId: int, taskId: int, fields: TaskFields)
    | DeleteTask(subjectId: int, taskId: int)

  /** The ids an endpoint refuses when they are falsy. Only the task endpoints check ids. */
  function GuardedIds(e: Endpoint): seq<int>
  {
    match e
    case ListSubjects => []
    case CreateSubject(_) => []
    case DeleteSubject(_) => []
    case ListTasks(sid) => [sid]
    case CreateTask(sid, _) => [sid]
    case UpdateTask(sid, tid, _) => [sid, tid]
    case DeleteTask(sid, tid) => [sid, tid]
  }

  function SubjectsPath(): seq<Segment> { [Lit("subjects")] }

  function SubjectPath(sid: int): seq<Segment> { [Lit("subjects"), Param(sid)] }

  function TasksPath(sid: int): seq<Segment> { [Lit("subjects"), Param(sid), Lit("tasks")] }

  function TaskPath(sid: int, tid: int): seq<Segment>
  {
    [Lit("subjects"), Param(sid), Lit("tasks"), Param(tid)]
  }

  /**
   The request an endpoint would issue, or Err when its id guard throws
   before anything is sent. A zero id is the only falsy number modelled.
   */
  function Describe(e: Endpoint): (r: Outcome<Request>)
    ensures r.Err? <==> 0 in GuardedIds(e)
    ensures r.Ok? ==> Route(r.value) == Some(e)
    ensures r.Ok? ==> (r.value.body == NoBody <==> r.value.verb in {Get, Delete})
  {
    match e
    case ListSubjects => Ok(Request(Get, SubjectsPath(), NoBody))
    case CreateSubject(name) => Ok(Request(Post, SubjectsPath(), NameOnly(name)))
    case DeleteSubject(sid) => Ok(Request(Delete, SubjectPath(sid), NoBody))
    case ListTasks(sid) =>
      if sid == 0 then Err else Ok(Request(Get, TasksPath(sid), NoBody))
    case CreateTask(sid, f) =>
      if sid == 0 then Err else Ok(Request(Post, TasksPath(sid), Fields(f)))
    case UpdateTask(sid, tid, f) =>
      if sid == 0 || tid == 0 then Err else Ok(Request(Put, TaskPath(sid, tid), Fields(f)))
    case DeleteTask(sid, tid) =>
      if sid == 0 || tid == 0 then Err else Ok(Request(Delete, TaskPath(sid, tid), NoBody))
  }

  /**
   Reads a request back as the endpoint call that produced it. It is an
   independent reading of the URL table: it accepts exactly the requests
   `Describe` can issue.
   */
  function Route(req: Request): (r: Option<Endpoint>)
  {
    var p := req.path;
    if p == SubjectsPath() then
      match req.verb
      case Get => if req.body == NoBody then Some(ListSubjects) else None
      case Post => if req.body.NameOnly? then Some(CreateSubject(req.body.name)) else None
      case _ => None
    else if |p| == 2 && p[0] == Lit("subjects") && p[1].Param? then
      if req.verb == Delete && req.body == NoBody then Some(DeleteSubject(p[1].id)) else None
    else if |p| == 3 && p[0] == Lit("subjects") && p[1].Param? && p[1].id != 0
      && p[2] == Lit("tasks") then
      match req.verb
      case Get => if req.body == NoBody then Some(ListTasks(p[1].id)) else None
      case Post => if req.body.Fields? then Some(CreateTask(p[1].id, req.body.fields)) else None
      case _ => None
    else if |p| == 4 && p[0] == Lit("subjects") && p[1].Param? && p[1].id != 0
      && p[2] == Lit("tasks") && p[3].Param? && p[3].id != 0 then
      match req.verb
      case Put => if req.body.Fields? then Some(UpdateTask(p[1].id, p[3].id, req.body.fields)) else None
      case Delete => if req.body == NoBody then Some(DeleteTask(p[1].id, p[3].id)) else None
      case _ => None
    else None
  }

  /** Route only accepts what Describe issues, so the URL table is unambiguous. */
  lemma RouteOnlyAcceptsDescribed(req: Request)
    ensures Route(req).Some? ==> Describe(Route(req).value) == Ok(req)
  {
    var p := req.path;
    if Route(req).Some? {
      if |p| == 1 {
      } else if |p| == 2 {
        assert p == SubjectPath(p[1].id);
      } else if |p| == 3 {
        assert p == TasksPath(p[1].id);
      } else {
        assert p == TaskPath(p[1].id, p[3].id);
      }
    }
  }

  /** Two endpoint calls that send the same request are the same call. */
  lemma DescribeInjective(e1: Endpoint, e2: Endpoint)
    requires Describe(e1).Ok? && Describe(e1) == Describe(e2)
    ensures e1 == e2
  {
  }

  /** The subject endpoints carry no id guard: every id, zero included, is sent. */
  lemma SubjectEndpointsUnguarded(name: string, sid: int)
    ensures Describe(DeleteSubject(sid)) == Ok(Request(Delete, SubjectPath(sid), NoBody))
    ensures Describe(CreateSubject(name)).Ok? && Describe(ListSubjects).Ok?
  {
  }

  /** An HTTP response as the client sees it: the `ok` flag and the parsed JSON payload. */
  datatype Reply<+T> = Reply(ok: bool, payload: T)

  /** The requests one API call put on the wire, and what its promise settled to. */
  datatype Exchange<+T> = Exchange(sent: seq<Request>, result: Outcome<T>)

  /**
   One API call: the guard may throw before sending; otherwise exactly one
   request is sent and a non-ok reply becomes an error. There is no retry.
   */
  function Call<T>(e: Endpoint, reply: Reply<T>): (x: Exchange<T>)
    ensures |x.sent| <= 1
    ensures x.sent == [] <==> 0 in GuardedIds(e)
    ensures x.sent != [] ==> x.sent[0] == Describe(e).value && Route(x.sent[0]) == Some(e)
    ensures x.result.Ok? <==> x.sent != [] && reply.ok
    ensures x.result.Ok? ==> x.result.value == reply.payload
  {
    match Describe(e)
    case Err => Exchange([], Err)
    case Ok(req) => Exchange([req], if reply.ok then Ok(reply.payload) else Err)
  }
}

=== FILE: lists.dfy ===
/**
 The two list splices the page performs on its local copies of the server
 lists: `Array.filter` by id (removal) and `Array.map` replacing by id.
 Both are generic in the element type; `key` reads the element's id.
 */
module Lists {

  /** `a` is `b` with some elements left out and the rest kept in their order. */
  ghost predicate IsSubsequence<T>(a: seq<T>, b: seq<T>)
    decreases |b|
  {
    a == [] ||
    (b != [] && ((a[0] == b[0] && IsSubsequence(a[1..], b[1..])) || IsSubsequence(a, b[1..])))
  }

  /** Keeps the elements whose key differs from `id`, in their original order. */
  function Remove<T(!new)>(xs: seq<T>, key: T -> int, id: int): (r: seq<T>)
    ensures forall x :: x in r <==> x in xs && key(x) != id
    ensures |r| <= |xs|
    decreases |xs|
  {
    if xs == [] then []
    else if key(xs[0]) == id then Remove(xs[1..], key, id)
    else [xs[0]] + Remove(xs[1..], key, id)
  }

  /** Every element whose key equals `id` becomes `u`; every other element stays where it was. */
  function Replace<T>(xs: seq<T>, key: T -> int, id: int, u: T): (r: seq<T>)
    ensures |r| == |xs|
    ensures forall i :: 0 <= i < |xs| && key(xs[i]) == id ==> r[i] == u
    ensures forall i :: 0 <= i < |xs| && key(xs[i]) != id ==> r[i] == xs[i]
    decreases |xs|
  {
    if xs == [] then []
    else [if key(xs[0]) == id then u else xs[0]] + Replace(xs[1..], key, id, u)
  }

  /** Removal keeps the survivors in their original relative order. */
  lemma {:induction false} RemoveIsSubsequence<T(!new)>(xs: seq<T>, key: T -> int, id: int)
    ensures IsSubsequence(Remove(xs, key, id), xs)
    decreases |xs|
  {
    if xs != [] {
      var r := Remove(xs, key, id);
      RemoveIsSubsequence(xs[1..], key, id);
      if key(xs[0]) != id {
        assert r[0] == xs[0] && r[1..] == Remove(xs[1..], key, id);
      }
    }
  }

  /** Removal drops every copy of an element with the id and keeps every copy of the others. */
  lemma {:induction false} RemoveMultiset<T(!new)>(xs: seq<T>, key: T -> int, id: int)
    ensures forall x :: multiset(Remove(xs, key, id))[x] == if key(x) == id then 0 else multiset(xs)[x]
    decreases |xs|
  {
    if xs != [] {
      RemoveMultiset(xs[1..], key, id);
      assert xs == [xs[0]] + xs[1..];
    }
  }

  /** Filtering a concatenation filters each part: elements before others stay before them. */
  lemma {:induction false} RemoveAppend<T(!new)>(a: seq<T>, b: seq<T>, key: T -> int, id: int)
    ensures Remove(a + b, key, id) == Remove(a, key, id) + Remove(b, key, id)
    decreases |a|
  {
    if a != [] {
      var ab := a + b;
      assert ab != [] && ab[0] == a[0] && ab[1..] == a[1..] + b;
      RemoveAppend(a[1..], b, key, id);
      var ra, rb := Remove(a[1..], key, id), Remove(b, key, id);
      if key(a[0]) == id {
        assert Remove(ab, key, id) == Remove(a[1..] + b, key, id);
        assert Remove(a, key, id) == ra;
      } else {
        assert Remove(ab, key, id) == [a[0]] + (ra + rb);
        assert Remove(a, key, id) == [a[0]] + ra;
        assert [a[0]] + (ra + rb) == ([a[0]] + ra) + rb;
      }
    } else {
      assert a + b == b;
    }
  }

  /** Removing an id that no element carries changes nothing. */
  lemma {:induction false} RemoveAbsent<T(!new)>(xs: seq<T>, key: T -> int, id: int)
    requires forall i :: 0 <= i < |xs| ==> key(xs[i]) != id
    ensures Remove(xs, key, id) == xs
    decreases |xs|
  {
    if xs != [] {
      RemoveAbsent(xs[1..], key, id);
    }
  }

  /** Removal is idempotent. */
  lemma {:induction false} RemoveTwice<T(!new)>(xs: seq<T>, key: T -> int, id: int)
    ensures Remove(Remove(xs, key, id), key, id) == Remove(xs, key, id)
  {
    var r := Remove(xs, key, id);
    forall i | 0 <= i < |r| ensures key(r[i]) != id {
      assert r[i] in r;
    }
    RemoveAbsent(r, key, id);
  }

  /** Replacing an id that no element carries changes nothing. */
  lemma {:induction false} ReplaceAbsent<T>(xs: seq<T>, key: T -> int, id: int, u: T)
    requires forall i :: 0 <= i < |xs| ==> key(xs[i]) != id
    ensures Replace(xs, key, id, u) == xs
  {
  }
}

=== FILE: page.dfy ===
/**
 The task page's state and the handlers that change it when an API call
 settles. Each handler is one atomic step: its guard, the API call (with the
 reply the server gives), and the local splice of the page's lists. After a
 mutation the page never refetches a list; it edits its own copy.
 */
module Page {
  import opened Api
  import Lists
  import TaskForm

  /** The last toast raised, if any; steps that raise none keep it. Only its kind is modelled. */
  datatype Notice = NoNotice | SuccessNotice | ErrorNotice

  datatype PageState = PageState(
    subjects: seq<Subject>,
    selected: Option<Subject>,
    tasks: seq<Task>,
    loading: bool,
    taskModalOpen: bool,
    editing: Option<Task>,
    notice: Notice)

  /** The state the page mounts with. */
  const Initial: PageState := PageState([], None, [], false, false, None, NoNotice)

  /** A transition's resulting state and the requests it put on the wire. */
  datatype Step = Step(state: PageState, sent: seq<Request>)

  function SubjectKey(s: Subject): int { s.subjectId }

  function TaskKey(t: Task): int { t.taskId }

  /** The three pieces of server data the page shows: subjects, selection and tasks. */
  predicate SameLists(a: PageState, b: PageState)
  {
    a.subjects == b.subjects && a.selected == b.selected && a.tasks == b.tasks
  }

  /** A task is being edited only while the task modal is open. */
  predicate EditingInModal(st: PageState)
  {
    st.editing.Some? ==> st.taskModalOpen
  }

  /** The loading spinner and the task modal are as they were: mutations touch neither. */
  predicate KeepsFlags(a: PageState, b: PageState)
  {
    a.loading == b.loading && a.taskModalOpen == b.taskModalOpen
  }

  /** Everything but the loading flag and the toast is as it was. */
  predicate OnlyNoticeChanged(a: PageState, b: PageState)
  {
    SameLists(a, b) && a.editing == b.editing && a.taskModalOpen == b.taskModalOpen
  }

  /**
   `loadSubjects`: the fetched list replaces the subjects, and its first
   entry becomes the selection only when nothing is selected yet. A failure
   raises an error toast and changes no data. Either way loading ends.
   */
  function LoadSubjects(st: PageState, reply: Reply<seq<Subject>>): (r: Step)
    ensures r.sent == [Request(Get, SubjectsPath(), NoBody)]
    ensures !r.state.loading
    ensures reply.ok ==> r.state.subjects == reply.payload
    ensures reply.ok ==> (r.state.selected != st.selected <==> st.selected.None? && reply.payload != [])
    ensures reply.ok && st.selected.None? && reply.payload != [] ==> r.state.selected == Some(reply.payload[0])
    ensures reply.ok ==> r.state.tasks == st.tasks && r.state.notice == st.notice
    ensures !reply.ok ==> OnlyNoticeChanged(r.state, st) && r.state.notice == ErrorNotice
    ensures r.state.editing == st.editing && r.state.taskModalOpen == st.taskModalOpen
  {
    var x := Call(ListSubjects, reply);
    match x.result
    case Ok(data) =>
      var selected := if |data| > 0 && st.selected.None? then Some(data[0]) else st.selected;
      Step(st.(subjects := data, selected := selected, loading := false), x.sent)
    case Err =>
      Step(st.(loading := false, notice := ErrorNotice), x.sent)
  }

  /**
   `loadTasks`: fetches the tasks of one subject. A zero id fails before any
   request. A failure raises an error toast and keeps the old task list.
   */
  function LoadTasks(st: PageState, sid: int, reply: Reply<seq<Task>>): (r: Step)
    ensures sid != 0 ==> r.sent == [Request(Get, TasksPath(sid), NoBody)]
    ensures sid == 0 ==> r.sent == []
    ensures !r.state.loading
    ensures sid != 0 && reply.ok ==> r.state.tasks == reply.payload && r.state.notice == st.notice
    ensures sid == 0 || !reply.ok ==> OnlyNoticeChanged(r.state, st) && r.state.notice == ErrorNotice
    ensures r.state.subjects == st.subjects && r.state.selected == st.selected
    ensures r.state.editing == st.editing && r.state.taskModalOpen == st.taskModalOpen
  {
    var x := Call(ListTasks(sid), reply);
    match x.result
    case Ok(data) => Step(st.(tasks := data, loading := false), x.sent)
    case Err => Step(st.(loading := false, notice := ErrorNotice), x.sent)
  }

  /**
   The effect that runs when the selection changes: load the selected
   subject's tasks, or empty the task list when nothing is selected.
   */
  function SelectionEffect(st: PageState, reply: Reply<seq<Task>>): (r: Step)
    ensures st.selected.None? ==> r.sent == [] && r.state == st.(tasks := [])
    ensures st.selected.Some? && st.selected.value.subjectId != 0 ==>
      r.sent == [Request(Get, TasksPath(st.selected.value.subjectId), NoBody)]
    ensures forall i :: 0 <= i < |r.sent| ==>
      Route(r.sent[i]) == Some(ListTasks(st.selected.value.subjectId))
    ensures st.selected.Some? && st.selected.value.subjectId != 0 && reply.ok ==>
      r.state.tasks == reply.payload && r.state.notice == st.notice
    ensures st.selected.Some? && (st.selected.value.subjectId == 0 || !reply.ok) ==>
      r.state.tasks == st.tasks && r.state.notice == ErrorNotice
    ensures st.selected.Some? ==> !r.state.loading
    ensures r.state.subjects == st.subjects && r.state.selected == st.selected
    ensures r.state.editing == st.editing && r.state.taskModalOpen == st.taskModalOpen
  {
    match st.selected
    case Some(s) => LoadTasks(st, s.subjectId, reply)
    case None => Step(st.(tasks := []), [])
  }

  /** The sidebar sets the selection. Selecting the current subject again is a no-op. */
  function Select(st: PageState, s: Subject): (r: PageState)
    ensures r.selected == Some(s) && r.subjects == st.subjects && r.tasks == st.tasks
    ensures r.editing == st.editing && r.taskModalOpen == st.taskModalOpen && r.notice == st.notice
    ensures r.loading == st.loading
  {
    st.(selected := Some(s))
  }

  /**
   `handleAddSubject`: the created subject is appended after the existing
   ones and becomes the selection.
   */
  function AddSubject(st: PageState, name: string, reply: Reply<Subject>): (r: Step)
    ensures r.sent == [Request(Post, SubjectsPath(), NameOnly(name))]
    ensures reply.ok ==> |r.state.subjects| == |st.subjects| + 1
    ensures reply.ok ==> r.state.subjects[..|st.subjects|] == st.subjects
    ensures reply.ok ==> r.state.subjects[|st.subjects|] == reply.payload
    ensures reply.ok ==> r.state.selected == Some(reply.payload) && r.state.notice == SuccessNotice
    ensures !reply.ok ==> OnlyNoticeChanged(r.state, st) && r.state.notice == ErrorNotice
    ensures r.state.tasks == st.tasks && r.state.editing == st.editing
    ensures KeepsFlags(r.state, st)
  {
    var x := Call(CreateSubject(name), reply);
    match x.result
    case Ok(created) =>
      Step(st.(subjects := st.subjects + [created], selected := Some(created), notice := SuccessNotice), x.sent)
    case Err => Step(st.(notice := ErrorNotice), x.sent)
  }

  /**
   `handleDeleteSubject`: every subject with the deleted id is removed and
   the rest keep their order. When the selection had that id it falls back
   to the first remaining subject, or to none.
   */
  function DeleteSubject(st: PageState, subject: Subject, reply: Reply<()>): (r: Step)
    ensures r.sent == [Request(Delete, SubjectPath(subject.subjectId), NoBody)]
    ensures reply.ok ==>
      forall s :: s in r.state.subjects <==> s in st.subjects && s.subjectId != subject.subjectId
    ensures reply.ok ==> Lists.IsSubsequence(r.state.subjects, st.subjects)
    ensures reply.ok ==>
      forall s :: multiset(r.state.subjects)[s] ==
        (if s.subjectId == subject.subjectId then 0 else multiset(st.subjects)[s])
    ensures reply.ok && st.selected.Some? && st.selected.value.subjectId == subject.subjectId ==>
      r.state.selected == (if r.state.subjects == [] then None else Some(r.state.subjects[0]))
    ensures reply.ok && !(st.selected.Some? && st.selected.value.subjectId == subject.subjectId) ==>
      r.state.selected == st.selected
    ensures reply.ok ==> r.state.notice == SuccessNotice
    ensures !reply.ok ==> OnlyNoticeChanged(r.state, st) && r.state.notice == ErrorNotice
    ensures r.state.tasks == st.tasks && r.state.editing == st.editing
    ensures KeepsFlags(r.state, st)
  {
    var id := subject.subjectId;
    var x := Call(Api.DeleteSubject(id), reply);
    match x.result
    case Ok(_) =>
      var rest := Lists.Remove(st.subjects, SubjectKey, id);
      SubjectRemoval(st.subjects, id);
      var selected :=
        if st.selected.Some? && st.selected.value.subjectId == id then
          (if |rest| > 0 then Some(rest[0]) else None)
        else st.selected;
      Step(st.(subjects := rest, selected := selected, notice := SuccessNotice), x.sent)
    case Err => Step(st.(notice := ErrorNotice), x.sent)
  }

  /** The facts about filtering the subjects by id that the delete handler states. */
  lemma SubjectRemoval(xs: seq<Subject>, id: int)
    ensures forall s :: s in Lists.Remove(xs, SubjectKey, id) <==> s in xs && s.subjectId != id
    ensures Lists.IsSubsequence(Lists.Remove(xs, SubjectKey, id), xs)
    ensures forall s ::
      multiset(Lists.Remove(xs, SubjectKey, id))[s] == (if s.subjectId == id then 0 else multiset(xs)[s])
  {
    Lists.RemoveIsSubsequence(xs, SubjectKey, id);
    Lists.RemoveMultiset(xs, SubjectKey, id);
  }

  /**
   `handleAddTask`: without a selection nothing happens; otherwise the
   created task is appended after the existing ones.
   */
  function AddTask(st: PageState, fields: TaskFields, reply: Reply<Task>): (r: Step)
    ensures st.selected.None? ==> r == Step(st, [])
    ensures st.selected.Some? && st.selected.value.subjectId != 0 ==>
      r.sent == [Request(Post, TasksPath(st.selected.value.subjectId), Fields(fields))]
    ensures st.selected.Some? && st.selected.value.subjectId != 0 && reply.ok ==>
      r.state.tasks == st.tasks + [reply.payload] && r.state.notice == SuccessNotice
    ensures st.selected.Some? && (st.selected.value.subjectId == 0 || !reply.ok) ==>
      OnlyNoticeChanged(r.state, st) && r.state.notice == ErrorNotice
    ensures r.state.subjects == st.subjects && r.state.selected == st.selected
    ensures r.state.editing == st.editing && KeepsFlags(r.state, st)
  {
    match st.selected
    case None => Step(st, [])
    case Some(sel) =>
      var x := Call(CreateTask(sel.subjectId, fields), reply);
      match x.result
      case Ok(created) => Step(st.(tasks := st.tasks + [created], notice := SuccessNotice), x.sent)
      case Err => Step(st.(notice := ErrorNotice), x.sent)
  }

  /**
   `handleUpdateTask`: needs a selection and a task being edited. Every task
   carrying the edited id is replaced by the server's copy; the others stay
   where they were. Editing then ends.
   */
  function UpdateTask(st: PageState, fields: TaskFields, reply: Reply<Task>): (r: Step)
    ensures st.selected.None? || st.editing.None? ==> r == Step(st, [])
    ensures (st.selected.Some? && st.editing.Some? &&
      st.selected.value.subjectId != 0 && st.editing.value.taskId != 0) ==>
      r.sent == [Request(Put, TaskPath(st.selected.value.subjectId, st.editing.value.taskId), Fields(fields))]
    ensures |r.state.tasks| == |st.tasks|
    ensures r.sent != [] && reply.ok ==>
      && (forall i :: 0 <= i < |st.tasks| && st.tasks[i].taskId == st.editing.value.taskId ==>
            r.state.tasks[i] == reply.payload)
      && (forall i :: 0 <= i < |st.tasks| && st.tasks[i].taskId != st.editing.value.taskId ==>
            r.state.tasks[i] == st.tasks[i])
      && r.state.editing.None? && r.state.notice == SuccessNotice
    ensures st.selected.Some? && st.editing.Some? && (r.sent == [] || !reply.ok) ==>
      OnlyNoticeChanged(r.state, st) && r.state.notice == ErrorNotice
    ensures r.state.subjects == st.subjects && r.state.selected == st.selected
    ensures KeepsFlags(r.state, st)
  {
    if st.selected.None? || st.editing.None? then Step(st, [])
    else
      var edited := st.editing.value;
      var x := Call(Api.UpdateTask(st.selected.value.subjectId, edited.taskId, fields), reply);
      match x.result
      case Ok(updated) =>
        Step(st.(tasks := Lists.Replace(st.tasks, TaskKey, edited.taskId, updated),
                 editing := None, notice := SuccessNotice), x.sent)
      case Err => Step(st.(notice := ErrorNotice), x.sent)
  }

  /**
   `handleDeleteTask`: without a selection nothing happens; otherwise every
   task with the deleted id is removed and the rest keep their order.
   */
  function DeleteTask(st: PageState, task: Task, reply: Reply<()>): (r: Step)
    ensures st.selected.None? ==> r == Step(st, [])
    ensures st.selected.Some? && st.selected.value.subjectId != 0 && task.taskId != 0 ==>
      r.sent == [Request(Delete, TaskPath(st.selected.value.subjectId, task.taskId), NoBody)]
    ensures r.sent != [] && reply.ok ==>
      && (forall t :: t in r.state.tasks <==> t in st.tasks && t.taskId != task.taskId)
      && Lists.IsSubsequence(r.state.tasks, st.tasks)
      && (forall t :: multiset(r.state.tasks)[t] == (if t.taskId == task.taskId then 0 else multiset(st.tasks)[t]))
      && r.state.notice == SuccessNotice
    ensures st.selected.Some? && (r.sent == [] || !reply.ok) ==>
      OnlyNoticeChanged(r.state, st) && r.state.notice == ErrorNotice
    ensures r.state.subjects == st.subjects && r.state.selected == st.selected
    ensures r.state.editing == st.editing && KeepsFlags(r.state, st)
  {
    match st.selected
    case None => Step(st, [])
    case Some(sel) =>
      var x := Call(Api.DeleteTask(sel.subjectId, task.taskId), reply);
      match x.result
      case Ok(_) =>
        TaskRemoval(st.tasks, task.taskId);
        Step(st.(tasks := Lists.Remove(st.tasks, TaskKey, task.taskId), notice := SuccessNotice), x.sent)
      case Err => Step(st.(notice := ErrorNotice), x.sent)
  }

  /** The facts about filtering the tasks by id that the delete handler states. */
  lemma TaskRemoval(xs: seq<Task>, id: int)
    ensures forall t :: t in Lists.Remove(xs, TaskKey, id) <==> t in xs && t.taskId != id
    ensures Lists.IsSubsequence(Lists.Remove(xs, TaskKey, id), xs)
    ensures forall t ::
      multiset(Lists.Remove(xs, TaskKey, id))[t] == (if t.taskId == id then 0 else multiset(xs)[t])
  {
    Lists.RemoveIsSubsequence(xs, TaskKey, id);
    Lists.RemoveMultiset(xs, TaskKey, id);
  }

  /** A successful task delete under a selection leaves exactly the filtered list. */
  lemma DeleteTaskSplices(st: PageState, task: Task)
    requires st.selected.Some? && st.selected.value.subjectId != 0 && task.taskId != 0
    ensures DeleteTask(st, task, Reply(true, ())).state.tasks == Lists.Remove(st.tasks, TaskKey, task.taskId)
  {
  }

  /** The "Add Task" buttons: open the modal on a blank form, whose save adds a task. */
  function OpenNewTask(st: PageState): (r: PageState)
    ensures r.taskModalOpen && TaskForm.InitForm(r.editing) == TaskForm.FormData("", "", "", Pending)
    ensures forall fields, reply :: SaveTask(r, fields, reply) == AddTask(r, fields, reply)
    ensures r.editing.None? && SameLists(r, st) && r.notice == st.notice && r.loading == st.loading
  {
    st.(editing := None, taskModalOpen := true)
  }

  /** A task card's edit button: open the modal on that task, whose save updates it. */
  function OpenEditTask(st: PageState, t: Task): (r: PageState)
    ensures r.taskModalOpen && TaskForm.InitForm(r.editing) == TaskForm.InitForm(Some(t))
    ensures forall fields, reply :: SaveTask(r, fields, reply) == UpdateTask(r, fields, reply)
    ensures r.editing == Some(t) && SameLists(r, st) && r.notice == st.notice && r.loading == st.loading
  {
    st.(editing := Some(t), taskModalOpen := true)
  }

  /** The modal's `onClose`: close it and stop editing, so the next opening starts afresh. */
  function CloseTaskModal(st: PageState): (r: PageState)
    ensures !r.taskModalOpen && r.editing.None? && EditingInModal(r)
    ensures SameLists(r, st) && r.notice == st.notice && r.loading == st.loading
  {
    st.(taskModalOpen := false, editing := None)
  }

  /** The modal's `onSave`: update while a task is being edited, add otherwise. */
  function SaveTask(st: PageState, fields: TaskFields, reply: Reply<Task>): (r: Step)
    ensures st.editing.Some? ==> r == UpdateTask(st, fields, reply)
    ensures st.editing.None? ==> r == AddTask(st, fields, reply)
    ensures st.editing.Some? && st.selected.Some? && r.sent != [] ==> r.sent[0].verb == Put
    ensures st.editing.None? && st.selected.Some? && r.sent != [] ==> r.sent[0].verb == Post
  {
    if st.editing.Some? then UpdateTask(st, fields, reply) else AddTask(st, fields, reply)
  }

  /**
   A submit of the task modal: a blank title saves nothing and keeps the
   modal open; otherwise the normalised fields are saved and the modal closes.
   */
  function SubmitTaskForm(st: PageState, form: TaskForm.FormData, reply: Reply<Task>): (r: Step)
    ensures TaskForm.Submit(form).None? ==> r == Step(st, [])
    ensures TaskForm.Submit(form).Some? ==>
      && r.sent == SaveTask(st, TaskForm.Submit(form).value, reply).sent
      && !r.state.taskModalOpen && r.state.editing.None?
    ensures TaskForm.Submit(form).Some? ==>
      && SameLists(r.state, SaveTask(st, TaskForm.Submit(form).value, reply).state)
      && r.state.notice == SaveTask(st, TaskForm.Submit(form).value, reply).state.notice
    ensures r.state.loading == st.loading
  {
    match TaskForm.Submit(form)
    case None => Step(st, [])
    case Some(fields) =>
      var s := SaveTask(st, fields, reply);
      Step(CloseTaskModal(s.state), s.sent)
  }

  /** The user actions and server replies that drive the page, one at a time. */
  datatype Event =
    | Mount(subjectsReply: Reply<seq<Subject>>, tasksReply: Reply<seq<Task>>)
    | Pick(subject: Subject, tasksReply: Reply<seq<Task>>)
    | NewSubject(name: string, subjectReply: Reply<Subject>, tasksReply: Reply<seq<Task>>)
    | DropSubject(subject: Subject, unitReply: Reply<()>, tasksReply: Reply<seq<Task>>)
    | OpenNew
    | OpenEdit(task: Task)
    | CloseModal
    | SubmitForm(form: TaskForm.FormData, taskReply: Reply<Task>)
    | DropTask(task: Task, unitReply: Reply<()>)

  /**
   Runs the selection effect when a step changed the selection: a new
   subject's tasks are requested after the step's own requests and replace
   the list, and no selection empties it.
   */
  function Settle(before: PageState, s: Step, tasksReply: Reply<seq<Task>>): (r: Step)
    ensures s.state.selected == before.selected ==> r == s
    ensures s.state.selected != before.selected && s.state.selected.None? ==>
      && r.sent == s.sent && r.state.tasks == []
      && r.state.loading == s.state.loading && r.state.notice == s.state.notice
    ensures (s.state.selected != before.selected && s.state.selected.Some? &&
             s.state.selected.value.subjectId != 0) ==>
      r.sent == s.sent + [Request(Get, TasksPath(s.state.selected.value.subjectId), NoBody)]
    ensures (s.state.selected != before.selected && s.state.selected.Some? &&
             s.state.selected.value.subjectId != 0 && tasksReply.ok) ==>
      r.state.tasks == tasksReply.payload && r.state.notice == s.state.notice
    ensures s.state.selected != before.selected && s.state.selected.Some? ==> !r.state.loading
    ensures (s.state.selected != before.selected && s.state.selected.Some? &&
             s.state.selected.value.subjectId == 0) ==> r.sent == s.sent
    ensures (s.state.selected != before.selected && s.state.selected.Some? &&
             (s.state.selected.value.subjectId == 0 || !tasksReply.ok)) ==>
      r.state.tasks == s.state.tasks && r.state.notice == ErrorNotice
    ensures r.state.subjects == s.state.subjects && r.state.selected == s.state.selected
    ensures r.state.editing == s.state.editing && r.state.taskModalOpen == s.state.taskModalOpen
  {
    if s.state.selected == before.selected then s
    else
      var e := SelectionEffect(s.state, tasksReply);
      Step(e.state, s.sent + e.sent)
  }

  /**
   One event. Picking, mounting and adding a subject change the selection
   and then load the new subject's tasks; the modal events touch no data.
   */
  function Apply(st: PageState, ev: Event): (r: Step)
    ensures EditingInModal(st) ==> EditingInModal(r.state)
    ensures ev.Pick? && st.selected == Some(ev.subject) ==> r == Step(st, [])
    ensures ev.Pick? && st.selected != Some(ev.subject) ==>
      && r.state.selected == Some(ev.subject) && r.state.subjects == st.subjects
      && (ev.subject.subjectId != 0 ==> r.sent == [Request(Get, TasksPath(ev.subject.subjectId), NoBody)])
      && (ev.subject.subjectId != 0 && ev.tasksReply.ok ==> r.state.tasks == ev.tasksReply.payload)
    ensures (ev.Mount? && ev.subjectsReply.ok && st.selected.None? && ev.subjectsReply.payload != [] &&
             ev.subjectsReply.payload[0].subjectId != 0) ==>
      && r.state.selected == Some(ev.subjectsReply.payload[0])
      && r.sent == [Request(Get, SubjectsPath(), NoBody),
                    Request(Get, TasksPath(ev.subjectsReply.payload[0].subjectId), NoBody)]
      && (ev.tasksReply.ok ==> r.state.tasks == ev.tasksReply.payload)
    ensures (ev.NewSubject? && ev.subjectReply.ok && st.selected != Some(ev.subjectReply.payload) &&
             ev.subjectReply.payload.subjectId != 0) ==>
      && r.state.selected == Some(ev.subjectReply.payload)
      && r.sent == [Request(Post, SubjectsPath(), NameOnly(ev.name)),
                    Request(Get, TasksPath(ev.subjectReply.payload.subjectId), NoBody)]
      && (ev.tasksReply.ok ==> r.state.tasks == ev.tasksReply.payload)
    ensures ev.OpenNew? || ev.OpenEdit? || ev.CloseModal? ==> r.sent == [] && SameLists(r.state, st)
  {
    match ev
    case Mount(sr, tr) => Settle(st, LoadSubjects(st, sr), tr)
    case Pick(s, tr) => if st.selected == Some(s) then Step(st, []) else Settle(st, Step(Select(st, s), []), tr)
    case NewSubject(name, sr, tr) => Settle(st, AddSubject(st, name, sr), tr)
    case DropSubject(s, ur, tr) => Settle(st, DeleteSubject(st, s, ur), tr)
    case OpenNew => Step(OpenNewTask(st), [])
    case OpenEdit(t) => Step(OpenEditTask(st, t), [])
    case CloseModal => Step(CloseTaskModal(st), [])
    case SubmitForm(form, tr) => SubmitTaskForm(st, form, tr)
    case DropTask(t, ur) => DeleteTask(st, t, ur)
  }

  /** The request fetches some subject's task list. */
  predicate LoadsTasks(req: Request)
  {
    Route(req).Some? && Route(req).value.ListTasks?
  }

  /**
   The selection effect over every event: when an event moves the selection
   to a subject, its last request is that subject's task list.
   */
  lemma SelectionChangeLoadsTasks(st: PageState, ev: Event)
    ensures var r := Apply(st, ev);
      (r.state.selected != st.selected && r.state.selected.Some? && r.state.selected.value.subjectId != 0) ==>
      r.sent != [] && r.sent[|r.sent| - 1] == Request(Get, TasksPath(r.state.selected.value.subjectId), NoBody)
  {
  }

  /** When an event keeps the selection, it requests no task list at all. */
  lemma KeptSelectionLoadsNoTasks(st: PageState, ev: Event)
    ensures var r := Apply(st, ev);
      r.state.selected == st.selected ==> forall i :: 0 <= i < |r.sent| ==> !LoadsTasks(r.sent[i])
  {
    if ev.SubmitForm? {
      SaveLoadsNoTasks(st, ev.form, ev.taskReply);
    }
  }

  /** Saving the task form sends a task create or update, never a task list request. */
  lemma SaveLoadsNoTasks(st: PageState, form: TaskForm.FormData, tr: Reply<Task>)
    ensures forall i :: 0 <= i < |SubmitTaskForm(st, form, tr).sent| ==> !LoadsTasks(SubmitTaskForm(st, form, tr).sent[i])
  {
  }

  /** The event's API reply was not ok. */
  predicate Failed(ev: Event)
  {
    match ev
    case Mount(sr, _) => !sr.ok
    case NewSubject(_, sr, _) => !sr.ok
    case DropSubject(_, ur, _) => !ur.ok
    case SubmitForm(_, tr) => !tr.ok
    case DropTask(_, ur) => !ur.ok
    case _ => false
  }

  /** A failed API call leaves subjects, selection and tasks as they were. */
  lemma FailureKeepsLists(st: PageState, ev: Event)
    requires Failed(ev)
    ensures SameLists(Apply(st, ev).state, st)
  {
  }

  /** Events one after another, each on the state the previous one left. */
  function Run(st: PageState, evs: seq<Event>): (r: PageState)
    ensures EditingInModal(st) ==> EditingInModal(r)
    ensures (forall i :: 0 <= i < |evs| ==> evs[i].OpenNew? || evs[i].OpenEdit? || evs[i].CloseModal?) ==>
      SameLists(r, st)
    decreases |evs|
  {
    if evs == [] then st else Run(Apply(st, evs[0]).state, evs[1..])
  }

  /** Any sequence of failing calls leaves the page's data exactly as it was. */
  lemma {:induction false} FailuresKeepLists(st: PageState, evs: seq<Event>)
    requires forall i :: 0 <= i < |evs| ==> Failed(evs[i])
    ensures SameLists(Run(st, evs), st)
    decreases |evs|
  {
    if evs != [] {
      FailureKeepsLists(st, evs[0]);
      FailuresKeepLists(Apply(st, evs[0]).state, evs[1..]);
    }
  }

  /** The selection, when there is one, is one of the listed subjects. */
  predicate SelectionListed(st: PageState)
  {
    st.selected.None? || st.selected.value in st.subjects
  }

  /**
   Every event keeps the selection among the listed subjects, provided the
   sidebar only offers listed subjects and the mount load runs while
   nothing is selected (it runs once, from the initial state).
   */
  lemma SelectionStaysListed(st: PageState, ev: Event)
    requires SelectionListed(st)
    requires ev.Pick? ==> ev.subject in st.subjects
    requires ev.Mount? ==> st.selected.None?
    ensures SelectionListed(Apply(st, ev).state)
  {
  }

  /**
   Adding a subject with a fresh id and then deleting it gives back the
   earlier subjects, and the selection falls back to the first of them.
   */
  lemma {:induction false} AddThenDeleteSubject(st: PageState, name: string, created: Subject)
    requires forall i :: 0 <= i < |st.subjects| ==> st.subjects[i].subjectId != created.subjectId
    ensures var added := AddSubject(st, name, Reply(true, created)).state;
      var after := DeleteSubject(added, created, Reply(true, ())).state;
      && after.subjects == st.subjects
      && after.selected == (if st.subjects == [] then None else Some(st.subjects[0]))
  {
    var id := created.subjectId;
    var added := AddSubject(st, name, Reply(true, created)).state;
    assert added.subjects == st.subjects + [created] && added.selected == Some(created);
    DeleteSubjectSplices(added, created);
    Lists.RemoveAppend(st.subjects, [created], SubjectKey, id);
    Lists.RemoveAbsent(st.subjects, SubjectKey, id);
    assert Lists.Remove([created], SubjectKey, id) == [];
  }

  /** Adding a task with a fresh id and then deleting it gives back the earlier tasks. */
  lemma {:induction false} AddThenDeleteTask(st: PageState, fields: TaskFields, created: Task)
    requires st.selected.Some? && st.selected.value.subjectId != 0 && created.taskId != 0
    requires forall i :: 0 <= i < |st.tasks| ==> st.tasks[i].taskId != created.taskId
    ensures var added := AddTask(st, fields, Reply(true, created)).state;
      DeleteTask(added, created, Reply(true, ())).state.tasks == st.tasks
  {
    var id := created.taskId;
    var added := AddTask(st, fields, Reply(true, created)).state;
    assert added.tasks == st.tasks + [created] && added.selected == st.selected;
    DeleteTaskSplices(added, created);
    Lists.RemoveAppend(st.tasks, [created], TaskKey, id);
    Lists.RemoveAbsent(st.tasks, TaskKey, id);
    assert Lists.Remove([created], TaskKey, id) == [];
  }

  /** Updating a task whose id is no longer listed changes no task, though editing still ends. */
  lemma UpdateOfUnlistedTask(st: PageState, fields: TaskFields, updated: Task)
    requires st.selected.Some? && st.editing.Some?
    requires st.selected.value.subjectId != 0 && st.editing.value.taskId != 0
    requires forall i :: 0 <= i < |st.tasks| ==> st.tasks[i].taskId != st.editing.value.taskId
    ensures UpdateTask(st, fields, Reply(true, updated)).state.tasks == st.tasks
    ensures UpdateTask(st, fields, Reply(true, updated)).state.editing.None?
  {
  }

  /**
   Deleting the only subject while it is selected leaves no subject, no
   selection and, once the selection effect has run, no tasks.
   */
  lemma DeleteOnlySubject(st: PageState, s: Subject, tr: Reply<seq<Task>>)
    requires st.subjects == [s] && st.selected == Some(s)
    ensures var after := Apply(st, DropSubject(s, Reply(true, ()), tr));
      after.state.subjects == [] && after.state.selected.None? && after.state.tasks == []
      && after.sent == [Request(Delete, SubjectPath(s.subjectId), NoBody)]
  {
  }

  /** A successful subject delete leaves exactly the filtered list. */
  lemma DeleteSubjectSplices(st: PageState, subject: Subject)
    ensures DeleteSubject(st, subject, Reply(true, ())).state.subjects ==
      Lists.Remove(st.subjects, SubjectKey, subject.subjectId)
  {
  }

  /** The subject list after deleting the head `s` of `[s, next] + rest` starts with `next`. */
  lemma {:induction false} DeleteHeadSubject(st: PageState, s: Subject, next: Subject, rest: seq<Subject>)
    requires st.subjects == [s, next] + rest && next.subjectId != s.subjectId
    ensures DeleteSubject(st, s, Reply(true, ())).state.subjects[0] == next
  {
    var id := s.subjectId;
    var tail := [next] + rest;
    assert st.subjects[0] == s && st.subjects[1..] == tail;
    assert tail[0] == next && tail[1..] == rest;
    assert Lists.Remove(tail, SubjectKey, id) == [next] + Lists.Remove(rest, SubjectKey, id);
    assert Lists.Remove(st.subjects, SubjectKey, id) == Lists.Remove(tail, SubjectKey, id);
    DeleteSubjectSplices(st, s);
  }

  /**
   Deleting the selected subject moves the selection to the first remaining
   subject and loads that subject's tasks.
   */
  lemma DeleteSelectedMovesSelection(st: PageState, s: Subject, next: Subject, rest: seq<Subject>,
                                     tr: Reply<seq<Task>>)
    requires st.subjects == [s, next] + rest && st.selected == Some(s)
    requires next.subjectId != s.subjectId && next.subjectId != 0
    ensures var after := Apply(st, DropSubject(s, Reply(true, ()), tr));
      && after.state.selected == Some(next)
      && after.sent == [Request(Delete, SubjectPath(s.subjectId), NoBody),
                        Request(Get, TasksPath(next.subjectId), NoBody)]
      && (tr.ok ==> after.state.tasks == tr.payload)
  {
    var d := DeleteSubject(st, s, Reply(true, ()));
    DeleteHeadSubject(st, s, next, rest);
    assert d.state.selected == Some(next);
    assert Apply(st, DropSubject(s, Reply(true, ()), tr)) == Settle(st, d, tr);
  }
}

=== FILE: task_form.dfy ===
/**
 The task modal's form: how it is filled when it opens, and how a submit
 normalises and validates the four fields before handing them to the page.
 Trimming uses the character class of JavaScript's `String.prototype.trim`.
 */
module TaskForm {
  import opened Api
  import opened Trimming

  /**
   The characters JavaScript's `trim` strips: the ECMAScript WhiteSpace code points (tab,
   vertical tab, form feed, space, no-break space, byte order mark and the
   Unicode category Zs) and the LineTerminator code points. Printable ASCII,
   the next-line control U+0085, the Mongolian vowel separator U+180E (no
   longer in Zs) and the zero-width space U+200B are not among them.
   */
  function IsWhitespace(c: char): (b: bool)
    ensures '!' <= c <= '~' ==> !b
    ensures c == '\U{0085}' || c == '\U{180E}' || c == '\U{200B}' ==> !b
    ensures b ==> c <= '\U{FEFF}'
    ensures b ==> c <= ' ' || '\U{00A0}' <= c
  {
    || c == '\t' || c == '\U{000B}' || c == '\U{000C}' || c == ' ' || c == '\U{00A0}'
    || c == '\U{FEFF}' || c == '\U{1680}' || ('\U{2000}' <= c <= '\U{200A}')
    || c == '\U{202F}' || c == '\U{205F}' || c == '\U{3000}'
    || c == '\n' || c == '\r' || c == '\U{2028}' || c == '\U{2029}'
  }

  /** The four controlled inputs of the modal. Every field is a plain string except the status select. */
  datatype FormData = FormData(title: string, description: string, dueDate: string, status: Status)

  /** The statuses the status select offers, in display order. */
  const StatusOptions: seq<Status> := [Pending, InProgress, Done]

  lemma StatusOptionsComplete(s: Status)
    ensures s in StatusOptions
    ensures |StatusOptions| == 3
    ensures forall i, j :: 0 <= i < j < |StatusOptions| ==> StatusOptions[i] != StatusOptions[j]
  {
  }

  function OrEmpty(o: Option<string>): string
  {
    match o
    case Some(v) => v
    case None => ""
  }

  /**
   The form state after the modal opens: the edited task's fields, absent
   ones shown as empty inputs, or a blank pending form when adding.
   */
  function InitForm(task: Option<Task>): (f: FormData)
    ensures task.None? ==> f.title == "" && f.description == "" && f.dueDate == "" && f.status == Pending
    ensures task.Some? ==> f.title == task.value.title && f.status == task.value.status
    ensures task.Some? ==> (f.description == "" <==> task.value.description in {None, Some("")})
    ensures task.Some? ==> (f.dueDate == "" <==> task.value.dueDate in {None, Some("")})
    ensures task.Some? && task.value.description.Some? ==> f.description == task.value.description.value
    ensures task.Some? && task.value.dueDate.Some? ==> f.dueDate == task.value.dueDate.value
  {
    match task
    case Some(t) => FormData(t.title, OrEmpty(t.description), OrEmpty(t.dueDate), t.status)
    case None => FormData("", "", "", Pending)
  }

  /** The submit button is disabled while the trimmed title is empty. */
  predicate SubmitDisabled(f: FormData)
  {
    Trim(f.title, IsWhitespace) == []
  }

  /**
   A submit: None when the trimmed title is empty (nothing is saved and the
   modal stays open); otherwise the normalised fields that are saved, after
   which the modal closes.
   */
  function Submit(f: FormData): (r: Option<TaskFields>)
    ensures r.None? <==> IsBlank(f.title, IsWhitespace)
    ensures r.Some? ==> r.value.title != [] && IsTrimmed(r.value.title, IsWhitespace) && |r.value.title| <= |f.title|
    ensures r.Some? ==> r.value.title == Trim(f.title, IsWhitespace)
    ensures r.Some? ==> (r.value.description.None? <==> IsBlank(f.description, IsWhitespace))
    ensures r.Some? && r.value.description.Some? ==>
      r.value.description.value != [] && IsTrimmed(r.value.description.value, IsWhitespace)
    ensures r.Some? && r.value.description.Some? ==>
      r.value.description.value == Trim(f.description, IsWhitespace)
    ensures r.Some? ==> (r.value.dueDate.None? <==> f.dueDate == "")
    ensures r.Some? && r.value.dueDate.Some? ==> r.value.dueDate.value == f.dueDate
    ensures r.Some? ==> r.value.status == f.status
  {
    var title := Trim(f.title, IsWhitespace);
    if title == [] then None
    else
      var description := Trim(f.description, IsWhitespace);
      Some(TaskFields(
        title,
        if description == [] then None else Some(description),
        if f.dueDate == "" then None else Some(f.dueDate),
        f.status))
  }

  /** The button is disabled exactly when a submit would be refused. */
  lemma DisabledIffRefused(f: FormData)
    ensures SubmitDisabled(f) <==> Submit(f).None?
  {
  }

  /** Padding the title with whitespace does not change what is saved. */
  lemma SubmitIgnoresTitlePadding(f: FormData, pre: string, post: string)
    requires IsBlank(pre, IsWhitespace) && IsBlank(post, IsWhitespace)
    ensures Submit(f.(title := pre + Trim(f.title, IsWhitespace) + post)) == Submit(f)
  {
    var g := f.(title := pre + Trim(f.title, IsWhitespace) + post);
    TrimPadded(pre, Trim(f.title, IsWhitespace), post, IsWhitespace);
    assert Trim(g.title, IsWhitespace) == Trim(f.title, IsWhitespace);
  }

  /** Padding the description with whitespace does not change what is saved. */
  lemma SubmitIgnoresDescriptionPadding(f: FormData, pre: string, post: string)
    requires IsBlank(pre, IsWhitespace) && IsBlank(post, IsWhitespace)
    ensures Submit(f.(description := pre + Trim(f.description, IsWhitespace) + post)) == Submit(f)
  {
    var g := f.(description := pre + Trim(f.description, IsWhitespace) + post);
    TrimPadded(pre, Trim(f.description, IsWhitespace), post, IsWhitespace);
    assert Trim(g.description, IsWhitespace) == Trim(f.description, IsWhitespace);
  }

  /** A task whose fields survive a trip through the form: what the round-trip lemma needs. */
  predicate WellFormed(t: Task)
  {
    && t.title != [] && IsTrimmed(t.title, IsWhitespace)
    && (t.description.Some? ==> t.description.value != [] && IsTrimmed(t.description.value, IsWhitespace))
    && (t.dueDate.Some? ==> t.dueDate.value != "")
  }

  /** Opening the modal on a well-formed task and submitting without edits saves the same fields. */
  lemma EditRoundTrip(t: Task)
    requires WellFormed(t)
    ensures Submit(InitForm(Some(t))) == Some(FieldsOf(t))
  {
    TrimOfTrimmed(t.title, IsWhitespace);
    if t.description.Some? {
      TrimOfTrimmed(t.description.value, IsWhitespace);
    }
  }

  /** Saving and reopening gives back the saved fields: the form is a fixpoint after one submit. */
  lemma SubmitIsStable(f: FormData, t: Task)
    requires Submit(f).Some? && FieldsOf(t) == Submit(f).value
    ensures Submit(InitForm(Some(t))) == Submit(f)
  {
    EditRoundTrip(t);
  }
}

=== FILE: trim.dfy ===
/**
 Whitespace trimming at both ends of a string, over a whitespace class `ws`
 given as a parameter. The task form instantiates `ws` with the character
 class of JavaScript's `String.prototype.trim`.
 */
module Trimming {

  /** Every character is whitespace (the empty string included). */
  predicate IsBlank(s: string, ws: char -> bool)
  {
    forall i :: 0 <= i < |s| ==> ws(s[i])
  }

  /** Neither starts nor ends with whitespace. */
  predicate IsTrimmed(s: string, ws: char -> bool)
  {
    s == [] || (!ws(s[0]) && !ws(s[|s| - 1]))
  }

  /** The first index at or after `k` that is not whitespace, or |s| when there is none. */
  function SkipForward(s: string, ws: char -> bool, k: nat): (n: nat)
    requires k <= |s|
    ensures k <= n <= |s|
    ensures forall i :: k <= i < n ==> ws(s[i])
    ensures n < |s| ==> !ws(s[n])
    decreases |s| - k
  {
    if k == |s| || !ws(s[k]) then k else SkipForward(s, ws, k + 1)
  }

  /** The end of the last non-whitespace character before `m`, or 0 when there is none. */
  function SkipBackward(s: string, ws: char -> bool, m: nat): (n: nat)
    requires m <= |s|
    ensures n <= m
    ensures forall i :: n <= i < m ==> ws(s[i])
    ensures n > 0 ==> !ws(s[n - 1])
  {
    if m == 0 || !ws(s[m - 1]) then m else SkipBackward(s, ws, m - 1)
  }

  /** Drops whitespace at both ends, as `String.prototype.trim` does. */
  function Trim(s: string, ws: char -> bool): (r: string)
    ensures IsTrimmed(r, ws)
    ensures |r| <= |s|
    ensures r == [] <==> IsBlank(s, ws)
  {
    var a := SkipForward(s, ws, 0);
    if a == |s| then [] else s[a..SkipBackward(s, ws, |s|)]
  }

  /** `trim` removes exactly the blank padding around a trimmed core, whatever that core is. */
  lemma TrimPadded(pre: string, core: string, post: string, ws: char -> bool)
    requires IsBlank(pre, ws) && IsBlank(post, ws) && IsTrimmed(core, ws)
    ensures Trim(pre + core + post, ws) == core
  {
    var s := pre + core + post;
    var lo, hi := |pre|, |pre| + |core|;
    assert forall i :: 0 <= i < lo ==> s[i] == pre[i];
    assert forall i :: hi <= i < |s| ==> s[i] == post[i - hi];
    if core == [] {
      assert IsBlank(s, ws) by {
        forall i | 0 <= i < |s| ensures ws(s[i]) {
          if i < lo { assert s[i] == pre[i]; } else { assert s[i] == post[i - hi]; }
        }
      }
    } else {
      assert s[lo] == core[0] && s[hi - 1] == core[|core| - 1];
      var a := SkipForward(s, ws, 0);
      var b := SkipBackward(s, ws, |s|);
      assert a == lo by {
        assert !ws(s[lo]) && forall i :: 0 <= i < lo ==> ws(s[i]);
      }
      assert b == hi by {
        assert !ws(s[hi - 1]) && forall i :: hi <= i < |s| ==> ws(s[i]);
      }
      assert s[lo..hi] == core;
    }
  }

  /** Trimming a string with no whitespace at either end changes nothing. */
  lemma TrimOfTrimmed(s: string, ws: char -> bool)
    requires IsTrimmed(s, ws)
    ensures Trim(s, ws) == s
  {
  }

  /** `trim` is idempotent: a second trim changes nothing, whatever the input. */
  lemma TrimIdempotent(s: string, ws: char -> bool)
    ensures Trim(Trim(s, ws), ws) == Trim(s, ws)
  {
    TrimOfTrimmed(Trim(s, ws), ws);
  }

  /** A prefix made of whitespace characters is blank. */
  lemma BlankPrefix(s: string, ws: char -> bool, a: nat)
    requires a <= |s| && forall i :: 0 <= i < a ==> ws(s[i])
    ensures IsBlank(s[..a], ws)
  {
    assert forall i :: 0 <= i < a ==> s[..a][i] == s[i];
  }

  /** A suffix made of whitespace characters is blank. */
  lemma BlankSuffix(s: string, ws: char -> bool, b: nat)
    requires b <= |s| && forall i :: b <= i < |s| ==> ws(s[i])
    ensures IsBlank(s[b..], ws)
  {
    assert forall i :: 0 <= i < |s| - b ==> s[b..][i] == s[b + i];
  }

  /** The trimmed string is a piece of the original with only whitespace cut on either side. */
  lemma TrimIsInfix(s: string, ws: char -> bool)
    ensures exists pre: string, post: string ::
      IsBlank(pre, ws) && IsBlank(post, ws) && s == pre + Trim(s, ws) + post
  {
    var a := SkipForward(s, ws, 0);
    var b := if a == |s| then a else SkipBackward(s, ws, |s|);
    assert a <= b by {
      if a < |s| { assert !ws(s[a]); }
    }
    BlankPrefix(s, ws, a);
    BlankSuffix(s, ws, b);
    assert Trim(s, ws) == s[a..b];
    assert s == s[..a] + s[a..b] + s[b..];
  }
}
